=== FILE: README.md ===
# Authentication state machine and navigation gate of the ClimateReady app

This project models, in Dafny, the authentication core of a React Native
client:

- the auth provider in `context/AuthContext.tsx`: five state cells
  (`isLoading`, `isLoggedIn`, `user`, `userUid`, `userProfile`) changed by six
  transitions (the identity service's session-change callback, `login`,
  `register`, `logout`, `updateUserProfile`, `reloadUserProfile`);
- the root layout's navigation gate in `app/_layout.tsx`: one pass of its
  effect, which repairs the locally cached `user_authenticated` flag and
  redirects to `/tabs` or `/landing`.

Every call into the identity service, the profile store and local storage is
an input: a `Result` (value or thrown error), an `Outcome` (done or thrown
error), or a fault flag. Each transition is a pure function from the prior
state and those outcomes to the new state. Commands return a `Completion`:
the new state, the store write they sent (a document creation or update), and the error they threw. Awaits are
sequencing points and each transition is atomic.

Files:

- `results.dfy`: `Option`, `Result`, `Outcome`, the shapes of call outcomes.
- `profiles.dfy`: profile documents as maps from field names to values, and
  the shallow spread `{ ...base, ...data }`.
- `auth_state.dfy`: the state record, the initial state, and the invariant
  `Wellformed`.
- `auth_transitions.dfy`: the six transitions.
- `auth_machine.dfy`: events, runs of events, and lemmas relating the
  transitions.
- `navigation_gate.dfy`: the repair test, the route choice and one pass of
  the gate.
- `app_flow.dfy`: what the gate does with the states the transitions produce.

Some helpers carry no contract of their own; the members below state their
meaning:

- `AuthStates.HasUid`: the JavaScript truthiness of `userUid`, where null and
  `""` both mean "no session" (`context/AuthContext.tsx:101`, `109`).
- `AuthStates.Wellformed`: the invariant the six transitions keep.
- `Profiles.Spread`: spreading null contributes no fields
  (`context/AuthContext.tsx:102`).
- `NavigationGate.Lookup`: `AsyncStorage.getItem`, null for an absent key
  (`app/_layout.tsx:28`).
- `NavigationGate.NeedsRepair`: the inconsistency test (`app/_layout.tsx:29`).
- `NavigationGate.PassThrows`: whether a settled pass reaches its `catch`
  (`app/_layout.tsx:26-43`).
- `NavigationGate.Path`: the two `replace` targets (`app/_layout.tsx:37`, `39`).
- `AuthStates.PhaseOf`: a derived view (loading, authenticated,
  unauthenticated) with no counterpart in the source.
- `AuthMachine.Run`: applies a sequence of events in order.

## Model

| member | source | states |
|---|---|---|
| AuthStates.Initial | context/AuthContext.tsx:23-27 | The provider mounts loading, logged out, with no user, uid or profile, in a well-formed state |
| AuthStates.SlimUser | context/AuthContext.tsx:34 | The exposed user record carries the account's e-mail, or `''` when the e-mail is null |
| AuthTransitions.Rethrow | context/AuthContext.tsx:73-75 | `login` and `register` throw a fresh error: it keeps the original message when there is one and gets the fallback text otherwise, so it always has a message, and it never carries the original error's code |
| AuthTransitions.FetchedOrNull | context/AuthContext.tsx:37-46 | A profile fetch inside the session callback yields the document when it exists, and null when it is absent or the fetch threw |
| AuthTransitions.SessionPending | context/AuthContext.tsx:31-38 | While the callback awaits the profile fetch, the visible state is loading and logged in, with the slim user and uid set and the old profile still in place. This state is well-formed too |
| AuthTransitions.OnAuthStateChanged | context/AuthContext.tsx:30-54 | The callback never fails and always ends with loading cleared. With an account, it is logged in with that account's user and uid, and the profile falls back to null. With null, it is logged out with user, uid and profile all cleared, whatever the prior state. It keeps the state well-formed |
| AuthTransitions.Login | context/AuthContext.tsx:60-76 | A failed sign-in throws and leaves the state unchanged. A successful one sets user and uid. A failed profile fetch after that keeps the new user and uid and still throws. `isLoggedIn` and `isLoading` are never changed |
| AuthTransitions.Register | context/AuthContext.tsx:78-90 | The profile written and adopted is the empty profile built from the supplied e-mail and names. A document creation is sent once the account exists. The state changes only if account creation and document creation both succeed. Either failure throws with the state unchanged |
| AuthTransitions.Logout | context/AuthContext.tsx:92-98 | A successful sign-out leaves the state logged out with user, uid and profile cleared. A failing sign-out rethrows its own error and changes nothing |
| AuthTransitions.UpdateUserProfile | context/AuthContext.tsx:100-106 | With no truthy uid it is a no-op. Otherwise only the profile changes: it becomes the shallow merge, where supplied fields win, other fields are kept and a null profile counts as empty. The store receives an update carrying exactly the local value, and a failed write throws without rollback |
| AuthTransitions.ReloadUserProfile | context/AuthContext.tsx:108-115 | With no truthy uid it is a no-op. A found document replaces the profile wholesale. A missing document leaves it unchanged. A failed fetch throws and changes nothing. No other cell changes |
| Profiles.Merge | context/AuthContext.tsx:102 | The spread's keys are the union of both key sets. The update's values win and every other base value is kept |
| Profiles.MergeIdempotent | context/AuthContext.tsx:102 | Spreading the same update twice equals spreading it once |
| Profiles.MergeEmptyUpdate | context/AuthContext.tsx:102 | An empty update keeps the profile, and turns a null profile into the empty one |
| Profiles.MergeSuccessive | context/AuthContext.tsx:102 | Two successive updates equal one update by their own spread |
| Profiles.MergeIsShallow | context/AuthContext.tsx:102 | A nested object in the update replaces the base's nested object wholesale, so the merge is not deep |
| AuthMachine.Apply | context/AuthContext.tsx:29-115 | Every transition keeps the state well-formed, and only the session callback changes `isLoading`, always to false |
| AuthMachine.RunPreservesWellformed | context/AuthContext.tsx:29-115 | Any sequence of transitions from a well-formed state ends well-formed. In such a state user and uid are set together, logged in implies a user record, and a profile implies a uid |
| AuthMachine.ReachableWellformed | context/AuthContext.tsx:23-115 | Every state reachable from the initial state is well-formed |
| AuthMachine.CommandsNeverEndLoading | context/AuthContext.tsx:31-53 | No sequence of commands alone changes `isLoading`. Only the session callback ends the initial loading phase |
| AuthMachine.SessionForgetsPriorState | context/AuthContext.tsx:30-54 | The callback's result does not depend on the state it finds, so it is authoritative for every cell |
| AuthMachine.LoginThenSession | context/AuthContext.tsx:60-76 | A login followed by the notification for the same account ends exactly where the notification alone would |
| AuthMachine.StaleProfileFollowsNewAccount | context/AuthContext.tsx:63-74 | In the atomic model: after signing in as an account whose profile fetch throws, the login throws, the new uid is set and the previous profile stays. An update that lands before the session notification for the new account completes writes the previous profile's unsupplied fields to the new account's document. That notification replaces the profile |
| AuthMachine.LoginDropsCodeLogoutKeepsIt | context/AuthContext.tsx:73-93 | A failed login throws an error without the service's code, while a failed logout lets the service error, code included, escape unchanged |
| AuthMachine.RegisterDocFailureStillLogsIn | context/AuthContext.tsx:78-89 | When the document creation throws after the account was created, register throws with the state unchanged. The session notification for that account then logs it in with a null profile |
| AuthMachine.LogoutForgetsPriorState | context/AuthContext.tsx:92-98 | A successful logout ends in the same state from any prior state, apart from the untouched loading flag |
| AuthMachine.RegisterThenReload | context/AuthContext.tsx:78-115 | Reloading the document that register wrote changes nothing. The profile is the empty profile built from the registration's e-mail and names |
| AuthMachine.ReloadDiscardsLocalUpdate | context/AuthContext.tsx:100-115 | After an update, a reload that finds a document adopts exactly that document, so the reload does not merge |
| AuthMachine.UpdateIdempotent | context/AuthContext.tsx:100-106 | Repeating a successful update with the same data changes nothing more and sends the same write |
| AuthMachine.ReloadIdempotent | context/AuthContext.tsx:108-115 | Reloading twice with the same fetch outcome equals reloading once |
| NavigationGate.RouteFor | app/_layout.tsx:36-40 | The route is `/tabs` exactly when logged in with a user record, and `/landing` otherwise; `/tabs` is the path replaced exactly then |
| NavigationGate.RendersRoutes | app/_layout.tsx:54-57 | The layout renders its routes only outside the loading phase |
| NavigationGate.NavigatePass | app/_layout.tsx:23-52 | While loading, a pass touches nothing. A settled pass always redirects and hides the splash screen. Anything thrown routes to `/landing` with the storage unchanged. Otherwise the pass redirects by `RouteFor`. The flag is removed only when the repair test holds, and always when it holds and nothing throws. No other key is touched |
| NavigationGate.RepairInvariant | app/_layout.tsx:28-31 | After a settled pass whose storage calls succeed, the flag never reads `"true"` while logged out |
| NavigationGate.StaleFlagSurvivesFailedRead | app/_layout.tsx:26-43 | When the storage read throws, a stale `"true"` flag survives while logged out, and the pass still routes to `/landing` |
| NavigationGate.PassIdempotent | app/_layout.tsx:23-52 | Repeating a successful pass with the same auth state leaves the storage as it is and redirects to the same route, provided the storage read succeeds again |
| NavigationGate.PassDependsOnlyOnGateInputs | app/_layout.tsx:21-52 | The pass depends only on `isLoading`, `isLoggedIn` and whether a user record exists |
| AppFlow.GateIdleWhileSessionLoads | app/_layout.tsx:25-55 | While the session callback awaits the profile fetch, the gate neither reads storage nor redirects nor renders routes |
| AppFlow.RevocationRoutesToLanding | context/AuthContext.tsx:47-52 | After a null notification, with no command involved, a pass with working storage goes to `/landing` and leaves no `"true"` flag |
| AppFlow.SignInRoutesToTabs | app/_layout.tsx:28-40 | After a sign-in notification, a pass whose read succeeds goes to `/tabs` and leaves the storage untouched |
| AppFlow.LogoutThenPass | context/AuthContext.tsx:92-98 | After a successful logout, the next settled pass goes to `/landing`. It is this pass, not logout, that removes a stale `"true"` flag |
| AppFlow.LoginAloneKeepsLanding | context/AuthContext.tsx:60-76 | From a logged-out state, login alone never makes the gate choose `/tabs`, whatever its outcome |
| AppFlow.WellformedGate | app/_layout.tsx:29-40 | In a well-formed state, the logged-in-without-user half of the repair test never holds. A repair is due exactly when logged out with a `"true"` flag, and `/tabs` is chosen exactly when logged in |
| AppFlow.ReachableGate | app/_layout.tsx:29-40 | The same two facts hold for every state reachable from the initial state |

## Behaviour of the code worth knowing

- `login` never sets `isLoggedIn`. The session callback sets it.
- When the profile fetch fails after a successful sign-in, `login` commits part of its state: user and uid change, and the error is still thrown. The previous profile stays, so after signing in as a different account it sits next to the new uid. In the atomic model, an `updateUserProfile` that lands before the session notification for the new account completes writes those stale fields into the new account's document. In the app that notification, which replaces the profile, normally comes first: while it runs the state is loading and the gate renders nothing.
- When `createUserDocument` fails, `register` throws with the state unchanged. The account already exists and is signed in, though, so the session notification logs it in with a null profile, and no document is ever created for it.
- `logout` clears nothing when `signOut` throws, and it rethrows that error unchanged.
- `logout` never touches local storage. A stale `"true"` flag is removed only by the gate's next settled pass.
- The cache repair holds only when the storage calls of the pass succeed.
- `updateUserProfile` and `reloadUserProfile` test `userUid` for truthiness, so an empty uid counts as no session.

## Left out

- app/landing.tsx, app/tabs/Profile/_layout.tsx and app/index.tsx: presentation, fixed tab configuration and an unconditional redirect to `/landing`. They contain no auth logic.
- The identity service, the profile store and local storage appear only as call outcomes. Their internals are not part of this model, and neither is the store's own merge on `updateUserDocument`.
- `createEmptyUserProfile` and the `UserProfile` shape: their source (`utils/userDataModel`) is not part of this model. The constructor is the function parameter `mkEmpty`, and a profile is an open map from field names to values.
- Profiles.Value: JavaScript numbers are modelled as unbounded integers. Only field identity and replacement matter to the merge.
- The passwords given to `login` and `register` only reach the identity service, whose outcome is an input, so they are not parameters.
- The raw `setUserProfile` setter that the provider exports (`context/AuthContext.tsx:12`, `118`): any consumer can set a profile through it, even while no uid is held, which breaks the third clause of `Wellformed`. So `AuthMachine.ReachableWellformed` covers runs of the six transitions only.
- `useAuth`'s throw outside a provider: a framework guard.
- React scheduling: batched state updates, effect re-runs on dependency change, and races between the session callback and commands in flight. Each transition is atomic.
- Stale closures: `updateUserProfile` and `reloadUserProfile` read `userUid` and `userProfile` from the render that created them (`context/AuthContext.tsx:100-118`). The model gives each event the current state instead. So successive calls through one reference compose in `AuthMachine.Run` but not in the app: from `{}`, `await updateUserProfile({x:1}); await updateUserProfile({y:2})` through one reference leaves and writes `{y:2}` in the app and `{x:1, y:2}` in the model.
- The 500 ms delay before redirecting, `SplashScreen.preventAutoHideAsync` at module load, and `console.error`: timing and logging only.
- NavigationGate.NavigatePass: `router.replace` is assumed not to throw, and a `removeItem` that throws is assumed to leave the storage as it was.
- Nothing in these files ever writes `"true"` under `user_authenticated`. The writer lives outside this core, so the model lets the flag hold any value.

=== FILE: app_flow.dfy ===
/** The auth provider and the navigation gate together: what the gate does
    with the states the provider's transitions produce. */
module AppFlow {

  import opened Results
  import opened Profiles
  import opened AuthStates
  import opened AuthTransitions
  import opened AuthMachine
  import opened NavigationGate

  /** While the session callback awaits the profile fetch, the gate does
      nothing: no storage access, no redirect, splash still shown. */
  lemma GateIdleWhileSessionLoads(s: AuthState, account: SessionUser, storage: Storage, faults: StorageFaults)
    ensures NavigatePass(SessionPending(s, account), storage, faults) == PassEffect(storage, None, false)
    ensures !RendersRoutes(SessionPending(s, account))
  {
  }

  /** Remote revocation needs no command: after a null notification, a pass
      with working storage lands on the landing flow and leaves no "true"
      flag behind, whatever the prior state. */
  lemma RevocationRoutesToLanding(s: AuthState, storage: Storage)
    ensures var r := NavigatePass(OnAuthStateChanged(s, SignedOut), storage, StorageFaults(false, false));
            && r.navigatedTo == Some(Landing)
            && Lookup(r.storage, AuthFlagKey) != Some("true")
  {
  }

  /** A sign-in notification settles into the application shell as soon as
      the storage read succeeds, and leaves the storage untouched. */
  lemma SignInRoutesToTabs(s: AuthState, account: SessionUser, fetch: Fetch, storage: Storage, removeThrows: bool)
    ensures var r := NavigatePass(OnAuthStateChanged(s, SignedIn(account, fetch)), storage, StorageFaults(false, removeThrows));
            r.navigatedTo == Some(Tabs) && r.storage == storage
  {
  }

  /** Logout writes no storage itself; a stale "true" flag is removed by the
      gate's next settled pass, which also lands on the landing flow. */
  lemma LogoutThenPass(s: AuthState, storage: Storage)
    requires PhaseOf(s) != Loading
    ensures var out := Logout(s, Pass).state;
            var r := NavigatePass(out, storage, StorageFaults(false, false));
            && r.navigatedTo == Some(Landing)
            && Lookup(r.storage, AuthFlagKey) != Some("true")
            && (Lookup(storage, AuthFlagKey) == Some("true") ==> r.storage == storage - {AuthFlagKey})
  {
  }

  /** Login alone does not change where the gate goes: it never sets
      `isLoggedIn`, so from a logged-out state the gate keeps choosing the
      landing flow until the session callback fires. */
  lemma LoginAloneKeepsLanding(s: AuthState, signIn: Result<SessionUser, Error>, fetch: Fetch, storage: Storage, faults: StorageFaults)
    requires PhaseOf(s) == Unauthenticated
    ensures NavigatePass(Login(s, signIn, fetch).state, storage, faults).navigatedTo == Some(Landing)
  {
  }

  /** In a well-formed state (every reachable one is) the "logged in without
      a user record" half of the repair test never holds: a repair is due
      exactly when logged out with a "true" flag, and the shell is chosen
      exactly when logged in. */
  lemma WellformedGate(s: AuthState, cached: Option<string>)
    requires Wellformed(s)
    ensures NeedsRepair(s.isLoggedIn, s.user.Some?, cached) <==> !s.isLoggedIn && cached == Some("true")
    ensures RouteFor(s.isLoggedIn, s.user.Some?) == Tabs <==> s.isLoggedIn
  {
  }

  /** The gate's decisions after any run of events from the initial state. */
  lemma ReachableGate(mkEmpty: (string, string, string) -> Profile, events: seq<Event>, cached: Option<string>)
    ensures var s := Run(mkEmpty, Initial(), events);
            && (NeedsRepair(s.isLoggedIn, s.user.Some?, cached) <==> !s.isLoggedIn && cached == Some("true"))
            && (RouteFor(s.isLoggedIn, s.user.Some?) == Tabs <==> s.isLoggedIn)
  {
    ReachableWellformed(mkEmpty, events);
    WellformedGate(Run(mkEmpty, Initial(), events), cached);
  }
}

=== FILE: auth_machine.dfy ===
/** The auth provider as a state machine: the events that drive it, runs of
    events from the initial state, and the facts relating its transitions. */
module AuthMachine {

  import opened Results
  import opened Profiles
  import opened AuthStates
  import opened AuthTransitions

  /** One transition together with the outcomes of the calls it awaits. */
  datatype Event =
    | SessionChanged(session: SessionEvent)
    | LoginCmd(signIn: Result<SessionUser, Error>, fetch: Fetch)
    | RegisterCmd(email: string, firstName: string, lastName: string,
                  signUp: Result<SessionUser, Error>, create: Outcome<Error>)
    | LogoutCmd(signOut: Outcome<Error>)
    | UpdateProfileCmd(data: Profile, persist: Outcome<Error>)
    | ReloadProfileCmd(fetch: Fetch)

  /** The state after one event. */
  function Apply(mkEmpty: (string, string, string) -> Profile, s: AuthState, e: Event): (r: AuthState)
    ensures Wellformed(s) ==> Wellformed(r)
    ensures r.isLoading != s.isLoading ==> e.SessionChanged? && !r.isLoading
  {
    match e
    case SessionChanged(session) => OnAuthStateChanged(s, session)
    case LoginCmd(signIn, fetch) => Login(s, signIn, fetch).state
    case RegisterCmd(email, first, last, signUp, create) =>
      Register(mkEmpty, s, email, first, last, signUp, create).state
    case LogoutCmd(signOut) => Logout(s, signOut).state
    case UpdateProfileCmd(data, persist) => UpdateUserProfile(s, data, persist).state
    case ReloadProfileCmd(fetch) => ReloadUserProfile(s, fetch).state
  }

  /** The state after a sequence of events, applied in order. */
  function Run(mkEmpty: (string, string, string) -> Profile, s: AuthState, events: seq<Event>): AuthState
    decreases |events|
  {
    if |events| == 0 then s else Run(mkEmpty, Apply(mkEmpty, s, events[0]), events[1..])
  }

  /** Every run from a well-formed state ends in a well-formed state. */
  lemma {:induction false} RunPreservesWellformed(mkEmpty: (string, string, string) -> Profile, s: AuthState, events: seq<Event>)
    requires Wellformed(s)
    ensures Wellformed(Run(mkEmpty, s, events))
    decreases |events|
  {
    if |events| > 0 {
      RunPreservesWellformed(mkEmpty, Apply(mkEmpty, s, events[0]), events[1..]);
    }
  }

  /** Every state reachable from the initial state is well-formed. */
  lemma ReachableWellformed(mkEmpty: (string, string, string) -> Profile, events: seq<Event>)
    ensures Wellformed(Run(mkEmpty, Initial(), events))
  {
    RunPreservesWellformed(mkEmpty, Initial(), events);
  }

  /** Loading stays set until the first session-change notification: no
      command ever ends the initial loading phase. */
  lemma {:induction false} CommandsNeverEndLoading(mkEmpty: (string, string, string) -> Profile, s: AuthState, events: seq<Event>)
    requires forall i :: 0 <= i < |events| ==> !events[i].SessionChanged?
    ensures Run(mkEmpty, s, events).isLoading == s.isLoading
    decreases |events|
  {
    if |events| > 0 {
      CommandsNeverEndLoading(mkEmpty, Apply(mkEmpty, s, events[0]), events[1..]);
    }
  }

  /** The session-change callback overwrites every state cell: its result
      does not depend on the state it found. */
  lemma SessionForgetsPriorState(s1: AuthState, s2: AuthState, event: SessionEvent)
    ensures OnAuthStateChanged(s1, event) == OnAuthStateChanged(s2, event)
  {
  }

  /** A notification for the account a login just signed in settles the
      state exactly as if the login had not run: login is subsumed by the
      callback, which is what finally sets `isLoggedIn`. */
  lemma LoginThenSession(s: AuthState, account: SessionUser, fetch: Fetch, again: Fetch)
    ensures OnAuthStateChanged(Login(s, Success(account), fetch).state, SignedIn(account, again))
         == OnAuthStateChanged(s, SignedIn(account, again))
  {
  }

  /** The sharpest effect of login's partial commit, in the atomic model:
      signing in as another account whose profile fetch throws keeps the
      previous account's profile next to the new uid, so an update that
      lands before the session notification for the new account completes
      writes those stale fields into the new account's document. That
      notification replaces the profile (see `LoginThenSession`). */
  lemma StaleProfileFollowsNewAccount(s: AuthState, account: SessionUser, e: Error, data: Profile, persist: Outcome<Error>)
    requires s.userProfile.Some? && account.uid != ""
    ensures var after := Login(s, Success(account), Failure(e));
            var upd := UpdateUserProfile(after.state, data, persist);
            && after.thrown.Some?
            && after.state.userUid == Some(account.uid)
            && after.state.userProfile == s.userProfile
            && upd.write.Some? && upd.write.value.Update? && upd.write.value.uid == account.uid
            && (forall k :: k in s.userProfile.value && k !in data ==>
                  k in upd.write.value.doc && upd.write.value.doc[k] == s.userProfile.value[k])
  {
  }

  /** Login replaces a service error by a fresh one without its code, while
      logout lets the service error escape as it is. */
  lemma LoginDropsCodeLogoutKeepsIt(s: AuthState, e: Error, fetch: Fetch)
    requires e.code.Some?
    ensures Login(s, Failure(e), fetch).thrown.value.code.None?
    ensures Logout(s, Fail(e)).thrown == Some(e)
  {
  }

  /** Register's counterpart of login's partial commit: when the document
      creation throws, register leaves the state unchanged, yet the account
      exists and is signed in, so the session notification for it logs in
      with a null profile (no document is found). */
  lemma RegisterDocFailureStillLogsIn(
    mkEmpty: (string, string, string) -> Profile,
    s: AuthState, email: string, firstName: string, lastName: string, account: SessionUser, e: Error)
    ensures var reg := Register(mkEmpty, s, email, firstName, lastName, Success(account), Fail(e));
            var after := OnAuthStateChanged(reg.state, SignedIn(account, Success(None)));
            && reg.state == s && reg.thrown.Some?
            && PhaseOf(after) == Authenticated
            && after.userUid == Some(account.uid)
            && after.userProfile.None?
  {
  }

  /** A successful logout ends in the same state whatever the prior state,
      apart from the untouched loading flag. */
  lemma LogoutForgetsPriorState(s1: AuthState, s2: AuthState)
    requires s1.isLoading == s2.isLoading
    ensures Logout(s1, Pass).state == Logout(s2, Pass).state
  {
  }

  /** Register, then reload the document it wrote: the reload changes
      nothing, because the registered profile is exactly that document. */
  lemma RegisterThenReload(
    mkEmpty: (string, string, string) -> Profile,
    s: AuthState, email: string, firstName: string, lastName: string, account: SessionUser)
    ensures var reg := Register(mkEmpty, s, email, firstName, lastName, Success(account), Pass);
            var reload := ReloadUserProfile(reg.state, Success(Some(reg.write.value.doc)));
            && reload.state == reg.state
            && reload.state.userProfile == Some(mkEmpty(email, firstName, lastName))
  {
  }

  /** Reload replaces, it does not merge: after an update and a reload that
      finds document `doc`, the profile is `doc`, with no trace of the
      update's fields. */
  lemma ReloadDiscardsLocalUpdate(s: AuthState, data: Profile, persist: Outcome<Error>, doc: Profile)
    requires HasUid(s)
    ensures ReloadUserProfile(UpdateUserProfile(s, data, persist).state, Success(Some(doc))).state.userProfile == Some(doc)
  {
  }

  /** Repeating an update is the same as applying it once. */
  lemma UpdateIdempotent(s: AuthState, data: Profile)
    ensures var once := UpdateUserProfile(s, data, Pass);
            UpdateUserProfile(once.state, data, Pass) == once
  {
    if HasUid(s) {
      MergeIdempotent(s.userProfile, data);
    }
  }

  /** Reloading twice with the same fetch outcome is the same as reloading
      once. */
  lemma ReloadIdempotent(s: AuthState, fetch: Fetch)
    ensures var once := ReloadUserProfile(s, fetch);
            ReloadUserProfile(once.state, fetch).state == once.state
  {
  }
}

=== FILE: auth_state.dfy ===
/** The authentication state held by the auth provider, the records it
    receives from the identity service, and the invariants the transitions
    keep. */
module AuthStates {

  import opened Results
  import opened Profiles

  /** The account record the identity service hands over on sign-in,
      sign-up and session change; its e-mail may be null. */
  datatype SessionUser = SessionUser(uid: string, email: Option<string>)

  /** The slim user record the provider exposes: only an e-mail. */
  datatype User = User(email: string)

  /** A thrown error: its message ("" stands for a missing message) and the
      service's error code, which a freshly constructed `Error` lacks. */
  datatype Error = Error(message: string, code: Option<string>)

  /** The outcome of a profile document fetch: the document when it exists,
      `None` when it does not, or the error the fetch threw. */
  type Fetch = Result<Option<Profile>, Error>

  /** The five state cells of the provider. */
  datatype AuthState = AuthState(
    isLoading: bool,
    isLoggedIn: bool,
    user: Option<User>,
    userUid: Option<string>,
    userProfile: Option<Profile>)

  /** The observable tri-state the navigation layer reacts to. */
  datatype Phase = Loading | Authenticated | Unauthenticated

  function PhaseOf(s: AuthState): Phase {
    if s.isLoading then Loading
    else if s.isLoggedIn then Authenticated
    else Unauthenticated
  }

  /** The state the provider mounts with. */
  function Initial(): (s: AuthState)
    ensures PhaseOf(s) == Loading
    ensures !s.isLoggedIn
    ensures s.user.None? && s.userUid.None? && s.userProfile.None?
    ensures Wellformed(s)
  {
    AuthState(true, false, None, None, None)
  }

  /** The slim record built from an identity-service account:
      `{ email: firebaseUser.email || '' }`. */
  function SlimUser(u: SessionUser): (r: User)
    ensures u.email.None? ==> r.email == ""
    ensures u.email.Some? ==> r.email == u.email.value
  {
    match u.email
    case Some(address) => User(address)
    case None => User("")
  }

  /** JavaScript truthiness of `userUid`: null and the empty string are both
      treated as "no session". */
  predicate HasUid(s: AuthState) {
    s.userUid.Some? && s.userUid.value != ""
  }

  /** Invariants every transition keeps:
      a user record and a uid are set and cleared together,
      a logged-in state always has a user record, and
      a profile is only held while a uid is. */
  predicate Wellformed(s: AuthState) {
    && (s.user.Some? <==> s.userUid.Some?)
    && (s.isLoggedIn ==> s.user.Some?)
    && (s.userProfile.Some? ==> s.userUid.Some?)
  }
}

=== FILE: auth_transitions.dfy ===
/** The six transitions of the auth provider, each a pure function of the
    prior state and of the outcomes of the external calls it awaits. Each
    transition is atomic; its awaits are sequencing points. */
module AuthTransitions {

  import opened Results
  import opened Profiles
  import opened AuthStates

  /** A profile document write sent to the profile store: the document
      creation of `register` or the update of `updateUserProfile`. */
  datatype Write = Create(uid: string, doc: Profile) | Update(uid: string, doc: Profile)

  /** What a command leaves behind: the new state, the store write it sent
      (if any), and the error it threw (if any). */
  datatype Completion = Completion(state: AuthState, write: Option<Write>, thrown: Option<Error>)

  /** What the session-change callback receives: an account together with
      the outcome of fetching its profile document, or null. */
  datatype SessionEvent = SignedIn(account: SessionUser, fetch: Fetch) | SignedOut

  /** `new Error(error.message || fallback)`: a fresh error that keeps only
      the message, falling back to the given text when it is empty; the
      original error's code is lost. */
  function Rethrow(e: Error, fallback: string): (r: Error)
    ensures e.message != "" ==> r.message == e.message
    ensures e.message == "" ==> r.message == fallback
    ensures fallback != "" ==> r.message != ""
    ensures r.code.None?
  {
    Error(if e.message != "" then e.message else fallback, None)
  }

  const LoginFailed := "Login failed"
  const RegistrationFailed := "Registration failed"

  /** The profile a fetch leaves in the state when its failure is absorbed:
      the document if it exists, null when it is absent or the fetch threw. */
  function FetchedOrNull(fetch: Fetch): (r: Option<Profile>)
    ensures fetch.Success? && fetch.value.Some? ==> r == fetch.value
    ensures fetch.Failure? || fetch.value.None? ==> r.None?
  {
    match fetch
    case Success(doc) => doc
    case Failure(_) => None
  }

  /** The state the session-change callback has published when it suspends
      on the profile fetch: loading again, logged in, and the slim user and
      uid already set, while the profile is still the prior one. */
  function SessionPending(s: AuthState, account: SessionUser): (r: AuthState)
    ensures PhaseOf(r) == Loading
    ensures r.isLoggedIn && r.user == Some(SlimUser(account)) && r.userUid == Some(account.uid)
    ensures r.userProfile == s.userProfile
    ensures Wellformed(r)
  {
    s.(isLoading := true, isLoggedIn := true, user := Some(SlimUser(account)), userUid := Some(account.uid))
  }

  /** The session-change callback run to completion. It never throws and
      always ends with loading cleared. With an account it logs in and adopts
      the fetched profile, degrading to null; with null it clears the
      session whatever the prior state was. */
  function OnAuthStateChanged(s: AuthState, event: SessionEvent): (r: AuthState)
    ensures !r.isLoading
    ensures r.isLoggedIn <==> event.SignedIn?
    ensures event.SignedIn? ==>
      && r.user == Some(SlimUser(event.account))
      && r.userUid == Some(event.account.uid)
      && r.userProfile == FetchedOrNull(event.fetch)
    ensures event.SignedOut? ==> r.user.None? && r.userUid.None? && r.userProfile.None?
    ensures Wellformed(r)
  {
    match event
    case SignedIn(account, fetch) =>
      SessionPending(s, account).(userProfile := FetchedOrNull(fetch), isLoading := false)
    case SignedOut =>
      s.(isLoggedIn := false, user := None, userProfile := None, userUid := None, isLoading := false)
  }

  /** `login`. A failed sign-in throws and changes nothing. A successful one
      sets the slim user and uid, then fetches the profile; if that fetch
      throws, the user and uid stay set and the error is still thrown. Login
      never touches `isLoggedIn` or `isLoading`: only the session-change
      callback does. */
  function Login(s: AuthState, signIn: Result<SessionUser, Error>, fetch: Fetch): (r: Completion)
    ensures r.state.isLoggedIn == s.isLoggedIn && r.state.isLoading == s.isLoading
    ensures r.write.None?
    ensures signIn.Failure? ==> r.state == s && r.thrown == Some(Rethrow(signIn.error, LoginFailed))
    ensures signIn.Success? ==>
      && r.state.user == Some(SlimUser(signIn.value))
      && r.state.userUid == Some(signIn.value.uid)
    ensures signIn.Success? && fetch.Failure? ==>
      && r.state.userProfile == s.userProfile
      && r.thrown == Some(Rethrow(fetch.error, LoginFailed))
    ensures signIn.Success? && fetch.Success? ==>
      r.state.userProfile == fetch.value && r.thrown.None?
    ensures Wellformed(s) ==> Wellformed(r.state)
  {
    match signIn
    case Failure(e) => Completion(s, None, Some(Rethrow(e, LoginFailed)))
    case Success(account) =>
      var signedIn := s.(user := Some(SlimUser(account)), userUid := Some(account.uid));
      match fetch
      case Failure(e) => Completion(signedIn, None, Some(Rethrow(e, LoginFailed)))
      case Success(doc) => Completion(signedIn.(userProfile := doc), None, None)
  }

  /** `register`. The account is created, then its profile document, built
      by `mkEmpty` (the empty-profile constructor) from the supplied e-mail
      and names; only when both succeed is the state set. Either failure
      throws and leaves the state unchanged. Like login, it does not set
      `isLoggedIn`. */
  function Register(
    mkEmpty: (string, string, string) -> Profile,
    s: AuthState, email: string, firstName: string, lastName: string,
    signUp: Result<SessionUser, Error>, create: Outcome<Error>): (r: Completion)
    ensures r.state.isLoggedIn == s.isLoggedIn && r.state.isLoading == s.isLoading
    ensures signUp.Failure? ==>
      r.state == s && r.write.None? && r.thrown == Some(Rethrow(signUp.error, RegistrationFailed))
    ensures signUp.Success? ==>
      r.write == Some(Create(signUp.value.uid, mkEmpty(email, firstName, lastName)))
    ensures signUp.Success? && create.Fail? ==>
      r.state == s && r.thrown == Some(Rethrow(create.error, RegistrationFailed))
    ensures signUp.Success? && create.Pass? ==>
      && r.thrown.None?
      && r.state.user == Some(SlimUser(signUp.value))
      && r.state.userUid == Some(signUp.value.uid)
      && r.state.userProfile == Some(mkEmpty(email, firstName, lastName))
    ensures r.thrown.None? <==> signUp.Success? && create.Pass?
    ensures Wellformed(s) ==> Wellformed(r.state)
  {
    match signUp
    case Failure(e) => Completion(s, None, Some(Rethrow(e, RegistrationFailed)))
    case Success(account) =>
      var profile := mkEmpty(email, firstName, lastName);
      var sent := Create(account.uid, profile);
      match create
      case Fail(e) => Completion(s, Some(sent), Some(Rethrow(e, RegistrationFailed)))
      case Pass =>
        Completion(s.(user := Some(SlimUser(account)), userUid := Some(account.uid), userProfile := Some(profile)),
                   Some(sent), None)
  }

  /** `logout`. When sign-out succeeds the session is cleared whatever the
      prior state; when it throws, the error escapes unchanged and nothing is
      cleared. Loading is never touched and no local storage is written. */
  function Logout(s: AuthState, signOut: Outcome<Error>): (r: Completion)
    ensures r.write.None? && r.state.isLoading == s.isLoading
    ensures signOut.Fail? ==> r.state == s && r.thrown == Some(signOut.error)
    ensures signOut.Pass? ==>
      && r.thrown.None?
      && !r.state.isLoggedIn
      && r.state.user.None? && r.state.userUid.None? && r.state.userProfile.None?
    ensures Wellformed(s) ==> Wellformed(r.state)
  {
    match signOut
    case Fail(e) => Completion(s, None, Some(e))
    case Pass => Completion(s.(isLoggedIn := false, user := None, userProfile := None, userUid := None), None, None)
  }

  /** `updateUserProfile`. Without a uid it does nothing at all. Otherwise
      the profile becomes the shallow merge of the update into it (a null
      profile merging as empty), that same value is sent to the store, and
      a failed write throws without rolling the local change back. */
  function UpdateUserProfile(s: AuthState, data: Profile, persist: Outcome<Error>): (r: Completion)
    ensures !HasUid(s) ==> r == Completion(s, None, None)
    ensures HasUid(s) ==>
      && r.state == s.(userProfile := r.state.userProfile)
      && r.state.userProfile.Some?
      && r.write == Some(Update(s.userUid.value, r.state.userProfile.value))
      && (forall k :: k in data ==> k in r.state.userProfile.value && r.state.userProfile.value[k] == data[k])
      && (forall k :: k in Spread(s.userProfile) && k !in data ==>
            k in r.state.userProfile.value && r.state.userProfile.value[k] == Spread(s.userProfile)[k])
      && r.state.userProfile.value.Keys == Spread(s.userProfile).Keys + data.Keys
      && r.thrown == (if persist.Fail? then Some(persist.error) else None)
    ensures Wellformed(s) ==> Wellformed(r.state)
  {
    if HasUid(s) then
      var updated := Merge(s.userProfile, data);
      var written := Update(s.userUid.value, updated);
      var next := s.(userProfile := Some(updated));
      match persist
      case Pass => Completion(next, Some(written), None)
      case Fail(e) => Completion(next, Some(written), Some(e))
    else
      Completion(s, None, None)
  }

  /** `reloadUserProfile`. Without a uid it does nothing. Otherwise a found
      document replaces the profile wholesale, a missing one leaves it as it
      is, and a failed fetch throws and changes nothing. */
  function ReloadUserProfile(s: AuthState, fetch: Fetch): (r: Completion)
    ensures r.write.None?
    ensures r.state == s.(userProfile := r.state.userProfile)
    ensures !HasUid(s) ==> r.state == s && r.thrown.None?
    ensures HasUid(s) && fetch.Failure? ==> r.state == s && r.thrown == Some(fetch.error)
    ensures HasUid(s) && fetch.Success? && fetch.value.None? ==> r.state == s && r.thrown.None?
    ensures HasUid(s) && fetch.Success? && fetch.value.Some? ==>
      r.state.userProfile == fetch.value && r.thrown.None?
    ensures Wellformed(s) ==> Wellformed(r.state)
  {
    if !HasUid(s) then Completion(s, None, None)
    else
      match fetch
      case Failure(e) => Completion(s, None, Some(e))
      case Success(None) => Completion(s, None, None)
      case Success(Some(doc)) => Completion(s.(userProfile := Some(doc)), None, None)
  }
}

=== FILE: navigation_gate.dfy ===
/** The root layout's navigation gate: one pass of its effect, which repairs
    the locally cached authentication flag and redirects to the application
    shell or to the landing flow. */
module NavigationGate {

  import opened Results
  import opened AuthStates

  /** The local storage key of the cached authentication flag. */
  const AuthFlagKey := "user_authenticated"

  /** The device's key/value storage. */
  type Storage = map<string, string>

  /** `getItem`: the stored string, or null. */
  function Lookup(storage: Storage, key: string): Option<string> {
    if key in storage then Some(storage[key]) else None
  }

  /** The two redirect targets. */
  datatype Route = Tabs | Landing

  function Path(r: Route): string {
    match r
    case Tabs => "/tabs"
    case Landing => "/landing"
  }

  /** Which of the storage calls of a pass throw. A removal that throws is
      taken to leave the storage as it was. */
  datatype StorageFaults = StorageFaults(readThrows: bool, removeThrows: bool)

  /** The effect of one pass: the storage afterwards, the `replace` target
      (none when the pass did nothing), and whether the splash screen was
      hidden. */
  datatype PassEffect = PassEffect(storage: Storage, navigatedTo: Option<Route>, splashHidden: bool)

  /** The inconsistency test: logged in without a user record, or logged
      out while the cache still reads "true". */
  predicate NeedsRepair(isLoggedIn: bool, hasUser: bool, cached: Option<string>) {
    (isLoggedIn && !hasUser) || (!isLoggedIn && cached == Some("true"))
  }

  /** The route chosen from the settled auth state. */
  function RouteFor(isLoggedIn: bool, hasUser: bool): (r: Route)
    ensures r == Tabs <==> isLoggedIn && hasUser
    ensures r == Landing <==> !isLoggedIn || !hasUser
    ensures Path(r) == "/tabs" <==> isLoggedIn && hasUser
  {
    if isLoggedIn && hasUser then Tabs else Landing
  }

  /** Whether a settled pass throws inside its `try`: the read throws, or a
      repair is due and the removal throws. */
  predicate PassThrows(s: AuthState, storage: Storage, faults: StorageFaults) {
    || faults.readThrows
    || (NeedsRepair(s.isLoggedIn, s.user.Some?, Lookup(storage, AuthFlagKey)) && faults.removeThrows)
  }

  /** Whether the layout renders its routes: not while loading, when only
      the splash screen shows. */
  function RendersRoutes(s: AuthState): (r: bool)
    ensures r <==> PhaseOf(s) != Loading
  {
    !s.isLoading
  }

  /** One run of the gate's effect with the auth state `s`. While loading it
      touches neither storage nor router nor splash screen. Otherwise it
      removes the flag exactly when a repair is due, redirects by the auth
      state (to the landing flow if anything threw), and always hides the
      splash screen. No key other than the flag is ever touched. */
  function NavigatePass(s: AuthState, storage: Storage, faults: StorageFaults): (r: PassEffect)
    ensures PhaseOf(s) == Loading ==> r == PassEffect(storage, None, false)
    ensures PhaseOf(s) != Loading ==> r.splashHidden && r.navigatedTo.Some?
    ensures PhaseOf(s) != Loading && PassThrows(s, storage, faults) ==>
      r.navigatedTo == Some(Landing) && r.storage == storage
    ensures PhaseOf(s) != Loading && !PassThrows(s, storage, faults) ==>
      && r.navigatedTo == Some(RouteFor(s.isLoggedIn, s.user.Some?))
      && (NeedsRepair(s.isLoggedIn, s.user.Some?, Lookup(storage, AuthFlagKey)) ==> Lookup(r.storage, AuthFlagKey).None?)
    ensures r.storage != storage ==>
      && PhaseOf(s) != Loading
      && NeedsRepair(s.isLoggedIn, s.user.Some?, Lookup(storage, AuthFlagKey))
    ensures forall k :: k != AuthFlagKey ==> Lookup(r.storage, k) == Lookup(storage, k)
    ensures r.navigatedTo == Some(Tabs) ==> s.isLoggedIn && s.user.Some?
  {
    if s.isLoading then PassEffect(storage, None, false)
    else if faults.readThrows then PassEffect(storage, Some(Landing), true)
    else
      var repair := NeedsRepair(s.isLoggedIn, s.user.Some?, Lookup(storage, AuthFlagKey));
      if repair && faults.removeThrows then PassEffect(storage, Some(Landing), true)
      else
        var repaired := if repair then storage - {AuthFlagKey} else storage;
        PassEffect(repaired, Some(RouteFor(s.isLoggedIn, s.user.Some?)), true)
  }

  /** The repair invariant: after a settled pass whose storage calls
      succeeded, the flag never reads "true" while logged out. */
  lemma RepairInvariant(s: AuthState, storage: Storage, faults: StorageFaults)
    requires PhaseOf(s) != Loading && !PassThrows(s, storage, faults)
    ensures !s.isLoggedIn ==> Lookup(NavigatePass(s, storage, faults).storage, AuthFlagKey) != Some("true")
  {
  }

  /** A pass whose storage calls can still throw may leave a stale "true"
      flag behind while logged out: the invariant needs the calls to
      succeed. */
  lemma StaleFlagSurvivesFailedRead(s: AuthState, storage: Storage)
    requires PhaseOf(s) == Unauthenticated && Lookup(storage, AuthFlagKey) == Some("true")
    ensures var r := NavigatePass(s, storage, StorageFaults(true, false));
            Lookup(r.storage, AuthFlagKey) == Some("true") && r.navigatedTo == Some(Landing)
  {
  }

  /** Idempotent redirect: repeating a pass that succeeded, with the same
      auth state and its storage read succeeding again, changes no storage
      and redirects to the same route. */
  lemma PassIdempotent(s: AuthState, storage: Storage, faults: StorageFaults, again: StorageFaults)
    requires PhaseOf(s) != Loading && !PassThrows(s, storage, faults)
    requires !again.readThrows
    ensures var first := NavigatePass(s, storage, faults);
            var second := NavigatePass(s, first.storage, again);
            second.storage == first.storage && second.navigatedTo == first.navigatedTo
  {
  }

  /** The pass reads only `isLoading`, `isLoggedIn` and whether a user record
      is present: two auth states that agree on those give the same pass. */
  lemma PassDependsOnlyOnGateInputs(s1: AuthState, s2: AuthState, storage: Storage, faults: StorageFaults)
    requires s1.isLoading == s2.isLoading && s1.isLoggedIn == s2.isLoggedIn
    requires s1.user.Some? == s2.user.Some?
    ensures NavigatePass(s1, storage, faults) == NavigatePass(s2, storage, faults)
  {
  }
}

=== FILE: profiles.dfy ===
/** Profile documents, treated as open records from field names to values,
    and the shallow object spread used to update them. */
module Profiles {

  import opened Results

  /** A field value of a profile document. `Undefined` is a field that is
      present with the value `undefined`; `Obj` is a nested object, which the
      spread copies by reference and never merges. */
  datatype Value =
    | Str(s: string)
    | Num(n: int)
    | Bool(b: bool)
    | Null
    | Undefined
    | Obj(fields: map<string, Value>)

  /** A profile document, or a partial update of one. */
  type Profile = map<string, Value>

  /** The fields contributed by spreading a possibly-null profile:
      `{...null}` contributes none. */
  function Spread(p: Option<Profile>): Profile {
    match p
    case None => map[]
    case Some(q) => q
  }

  /** `{ ...base, ...data }`: every field of `data` wins, every other field of
      `base` is kept, and nothing else appears. */
  function Merge(base: Option<Profile>, data: Profile): (r: Profile)
    ensures r.Keys == Spread(base).Keys + data.Keys
    ensures forall k :: k in data ==> r[k] == data[k]
    ensures forall k :: k in Spread(base) && k !in data ==> r[k] == Spread(base)[k]
  {
    Spread(base) + data
  }

  /** Applying the same update twice is the same as applying it once. */
  lemma MergeIdempotent(base: Option<Profile>, data: Profile)
    ensures Merge(Some(Merge(base, data)), data) == Merge(base, data)
  {
  }

  /** An empty update keeps a present profile, and turns a null one into `{}`. */
  lemma MergeEmptyUpdate(base: Option<Profile>)
    ensures Merge(base, map[]) == Spread(base)
  {
  }

  /** Two successive updates equal one update with their own spread. */
  lemma MergeSuccessive(base: Option<Profile>, d1: Profile, d2: Profile)
    ensures Merge(Some(Merge(base, d1)), d2) == Merge(base, Merge(Some(d1), d2))
  {
  }

  /** The merge is shallow: a nested object in the update replaces the nested
      object of the base wholesale, whatever fields the latter had. */
  lemma MergeIsShallow(base: Profile, data: Profile, k: string)
    requires k in base && base[k].Obj?
    requires k in data && data[k].Obj?
    ensures Merge(Some(base), data)[k].fields == data[k].fields
  {
  }
}

=== FILE: results.dfy ===
/** How the outcome of an external call is written down: every call into
    the identity service, the profile store or local storage either yields
    its value or throws. */
module Results {

  /** A value that may be JavaScript `null` (`None`). */
  datatype Option<T> = None | Some(value: T)

  /** An awaited call that yields a value or throws. */
  datatype Result<R, E> = Success(value: R) | Failure(error: E)

  /** An awaited call that yields nothing or throws. */
  datatype Outcome<E> = Pass | Fail(error: E)
}
